=== FILE: README.md ===
# Planetary N-body stepper in Dafny

This project models the simulation core of `PlanetaryModels.py`, a fixed-step
N-body simulator of the Sun and the eight planets. Each body is a `Planet`
record with a name, a position, a velocity, a mass and a radius. One step of
length `t` does the following:

- It sums, per axis, the Newtonian pull `G*m*delta/R^3` of every *differently
  named* body on each body.
- It applies the constant-acceleration formulas `v + a*t` and
  `r + v*t + (a/2)*t^2`.
- It computes every body's new state from the unmodified list, and only then
  writes all of them back.

The run repeats the step once per sample time in
`range(0, SIMULATION_TIME, TIMESTEP)`. It records every body's position after
each step in a table indexed by body and then by sample. `orbitalSpeed` gives
the circular-orbit speed used for the initial velocities.

All arithmetic is over `real`. `np.sqrt` is a function parameter
`sqrt: real -> real`. Where its properties are needed, the ghost predicate
`Gravity.IsSqrt` requires them: `sqrt(x) >= 0`, and `sqrt(x)*sqrt(x) == x` for
`x >= 0`. The distance `R` stays abstract as `Separation(sqrt, main, p)`. The
model does not divide by a zero `R`; instead it requires a non-zero `R` for
every pair of differently named bodies (`Separated`, `SystemSeparated`,
`Runner.SeparatedFor`). `Gravity.SeparationPositive` shows that this is the
same as the two bodies having different positions.

The modules follow the program:

| module | file | contents |
|---|---|---|
| `Bodies` | bodies.dfy | `Vec3`, the `Planet` record, writing a new state into a record |
| `Kinematics` | kinematics.dfy | `newVelocity`, `newPosition` |
| `Gravity` | gravity.dfy | `G`, `R`, one body's pull, `planetAcceleration` |
| `Stepper` | stepper.dfy | `updateSystem`, as a function and as the source's two loops |
| `Orbit` | orbit.dfy | `orbitalSpeed` |
| `Runner` | runner.dfy | `range(0, T, dt)` and the step-and-record loop |
| `RealArith` | arith.dfy | small non-linear facts about reals, one per lemma |

## Model

| member | source | states |
|---|---|---|
| Bodies.WithState | PlanetaryModels.py:104-111 | The written-back record has exactly the staged position and velocity, and keeps its name, mass and `r`. |
| Kinematics.NewVelocity | PlanetaryModels.py:21-31 | With zero acceleration or zero time the velocity is unchanged. For `t != 0` the velocity change divided by `t` is exactly the acceleration. |
| Kinematics.NewPosition | PlanetaryModels.py:33-45 | At `t == 0` the position is unchanged. The distance covered is `t` times the mean of the start velocity and the end velocity `NewVelocity(t, v, a)`. |
| Kinematics.VelocityComposes | PlanetaryModels.py:21-31 | Two velocity updates under the same acceleration equal one update over the summed time. |
| Kinematics.PositionComposes | PlanetaryModels.py:33-45 | Two position updates under the same acceleration, the second starting from the updated velocity, equal one update over the summed time. |
| Kinematics.StepReversible | PlanetaryModels.py:21-45 | An update over `-t` from the updated state restores the original velocity and position. |
| Gravity.Acceleration | PlanetaryModels.py:59-68 | A list whose every entry has the main body's name gives the zero vector. |
| Gravity.Others | PlanetaryModels.py:62-63 | The entries that the loop counts are exactly the list entries with a different name, each as often as it occurs in the list: every entry of the result is differently named, and as multisets the result is the list with the same-named entries removed. |
| Gravity.SeparatedParts | PlanetaryModels.py:63-67 | The non-zero-`R` requirement holds for a concatenation exactly when it holds for both parts. |
| Gravity.AccelerationConcat | PlanetaryModels.py:59-68 | The sum over `a + b` is the componentwise sum of the sums over `a` and over `b`. |
| Gravity.AccelerationIgnoresSameName | PlanetaryModels.py:62-63 | Inserting an entry with the main body's name anywhere in the list leaves the acceleration unchanged. |
| Gravity.SeparatedByMultiset | PlanetaryModels.py:62-67 | The non-zero-`R` requirement does not depend on the order of the list. |
| Gravity.AccelerationSplitAt | PlanetaryModels.py:59-68 | Taking entry `k` out of the list and adding its own contribution back gives the same sum. |
| Gravity.AccelerationPermutation | PlanetaryModels.py:59-68 | The acceleration does not depend on the order of the list: any reordering gives the same vector. |
| Gravity.AccelerationIsSumOfOthers | PlanetaryModels.py:59-68 | The accumulated sum equals the reference sum of pulls over exactly the differently named entries. |
| Gravity.ThirdLaw | PlanetaryModels.py:64-67 | `R` is symmetric. The force of `b` on `a` is minus the force of `a` on `b` (mass times pull, per axis). |
| Gravity.PullIsScaledDelta | PlanetaryModels.py:64-67 | One body's pull is the displacement vector towards it scaled by `G*m/R^3`, so it points along the line between the two bodies. |
| Gravity.AxisPullAntisymmetric | PlanetaryModels.py:65-67 | Per axis, `ma` times the pull of `mb` equals minus `mb` times the pull of `ma` along the reversed displacement. |
| Gravity.SeparatedPrefix | PlanetaryModels.py:62-67 | The non-zero-`R` requirement holds for every prefix of the list. |
| Gravity.AccelerationStep | PlanetaryModels.py:62-67 | One more loop iteration adds the entry's pull if its name differs, and nothing otherwise. |
| Gravity.SeparationPositive | PlanetaryModels.py:64 | With a true square root, `R` is non-negative, and it is zero exactly when the two positions coincide. |
| Gravity.PlanetAcceleration | PlanetaryModels.py:49-68 | The source's loop with three accumulators returns exactly the acceleration `Acceleration(sqrt, main, list)`. |
| Stepper.UpdateSystem | PlanetaryModels.py:71-113 | One position and one velocity per input body, in input order. Entry `i` is body `i` updated against the pre-step list (snapshot semantics). Body `i` ends with exactly entry `i`, with name, mass, `r` and list length unchanged. |
| Stepper.Commit | PlanetaryModels.py:104-111 | The list keeps its length and every body's name, mass and `r`; body `i` ends with exactly position `i` and velocity `i`. |
| Stepper.SystemSeparatedByMultiset | PlanetaryModels.py:90-91 | The non-zero-`R` requirement on the whole system does not depend on the order of the list. |
| Stepper.UpdateSystemOrderIndependent | PlanetaryModels.py:71-113 | Reordering the list does not change any body's state after the step. |
| Stepper.StagePlanetIsVectorUpdate | PlanetaryModels.py:91-99 | The staged entry of one body is the vector form of the constant-acceleration update against the snapshot: velocity `v + t*a`, position `r + t*v + (t*t/2)*a`, with `a` the body's acceleration over the unmodified list. |
| Stepper.UpdateSystemLoops | PlanetaryModels.py:86-113 | The source's two loops, staging every body first and then writing each staged entry back in a second pass, return exactly `UpdateSystem`. |
| Stepper.StageAll | PlanetaryModels.py:86-102 | The first loop's entry `k` is the single-body update of body `k` against the untouched list. |
| Stepper.CommitAll | PlanetaryModels.py:104-111 | The write-back loop, which changes one body per pass, yields `Commit`: each body takes its staged entry and nothing else changes. |
| Orbit.OrbitalSpeed | PlanetaryModels.py:116-128 | For a positive central mass the speed has the sign of `r`: negative for `r < 0`, positive for `r > 0`. `r == 0` is outside the domain. |
| Orbit.CircularRadicand | PlanetaryModels.py:126-128 | Both branches take the root of the same number `G*m/Abs(r)`. It is non-negative for `m >= 0` and positive for `m > 0`. |
| Orbit.OrbitalSpeedOdd | PlanetaryModels.py:126-128 | Mirroring the radius negates the speed. |
| Orbit.OrbitalSpeedCircular | PlanetaryModels.py:116-128 | The speed is that of a circular orbit: `s^2 * Abs(r) == G*m`, i.e. the centripetal acceleration `s^2/Abs(r)` equals the gravitational `G*m/r^2`. |
| Runner.RangeSeq | PlanetaryModels.py:161 | Element `k` of `range(start, stop, step)` is `start + k*step`. |
| Runner.CeilDivStride | PlanetaryModels.py:161 | Covering a distance `d` takes one stride if `d <= s`, and otherwise one more than covering `d - s`. |
| Runner.RangeLength | PlanetaryModels.py:161 | The closed-form count equals the length of the range, for either sign of the step. |
| Runner.StepCountIsLength | PlanetaryModels.py:161-167 | The number of steps the run takes is `len(range(0, SIMULATION_TIME, TIMESTEP))`. |
| Runner.Iterate | PlanetaryModels.py:167-169 | After any number of steps, the list has the same bodies in the same order: names, masses and `r` are kept. |
| Runner.SeparatedForPrefix | PlanetaryModels.py:167-169 | A run that is separated for `n` steps is separated for any fewer. |
| Runner.IterateSplit | PlanetaryModels.py:167-169 | `a + b` steps are `b` steps after the first `a`. |
| Runner.RecordColumn | PlanetaryModels.py:170-173 | Column `j` of every row takes the given position, and every other cell is unchanged. |
| Runner.Advance | PlanetaryModels.py:167-173 | Step `j + 1` of a run yields the state after `j + 1` steps, and its returned positions are those of that state. |
| Runner.StepOnce | PlanetaryModels.py:169 | The step called on the state after `j` steps yields the state after `j + 1` steps and its positions. |
| Runner.Run | PlanetaryModels.py:158-173 | The table has one row per body and one column per sample time. Cell `[i][j]` is body `i`'s position after `j + 1` steps of length `TIMESTEP`. The final list is the state after all steps. |

## Left out

- The constant tables and the module-level initialisation (PlanetaryModels.py:131-155) are configuration data and are not modelled. `OrbitalSpeed` is modelled on its own.
- The plotting and the reference-frame subtraction (PlanetaryModels.py:176-201) only display results and are not modelled.
- Floating-point rounding is not modelled: all arithmetic is exact over `real`. `int` time values become `real` when passed to the step.
- `np.sqrt` is a function parameter. Only `IsSqrt` says anything about it.
- NaN and infinity from coincident bodies (the division by `R**3` at lines 65-67 with `R == 0`) are not modelled. A non-zero `R` is a precondition instead.
- `Orbit.OrbitalSpeed`: `r == 0` is a precondition, because the source divides by `r`; the Sun never calls it. For a negative mass the radicand is negative and `np.sqrt` would give NaN. The model then returns the unconstrained value of `sqrt` and states nothing about it.
- Runner.RangeSeq, Runner.RangeLength, Runner.StepCountIsLength, Runner.Run (and the helper `StepCount`): a zero step, for which Python's `range` raises `ValueError`, is excluded by the precondition `step != 0` / `timestep != 0`; the model says nothing about that error.
- The sample time `t = times[j]` (line 168) is never used by the source; every step has length `TIMESTEP`. The model does the same.
- The run mutates the global `planetList` in place. The model passes the list explicitly and returns the final list.
- Stepper.UpdateSystemLoops and Stepper.CommitAll work on immutable sequences, so the write-back pass updates a copy. Python's in-place mutation of the shared list while its staged values are held is not modelled; that the staged values are all computed before any write is stated by the snapshot clause of `UpdateSystem` and by `StageAll`.
- Gravity.Acceleration: the inverse-square magnitude of one pull, `|pull| == G*m/R^2`, is not stated. Only the per-axis formula, its sums and its antisymmetry are. `R` is kept abstract as the value of the `sqrt` parameter, and the magnitude needs non-linear facts about `sqrt(SquaredDistance)` cubed that the solver does not close.
- Bodies are excluded from their own sum by *name*, as the source does at line 63, not by object identity. Two distinct bodies with equal names would ignore each other.
- `G` is `6.67e-11`, as written at line 5.
- The `Planet` field `r` holds the body's radius, as the initialisation assigns `RADII[i]` to it, although the class comment calls it the distance from the Sun. The model only carries it through unchanged.

=== FILE: arith.dfy ===
/**
 Small facts about real multiplication and division, stated one at a time so
 that the solver meets each non-linear step in isolation. Lemmas that return
 a product or a sum of squares hand it back as an out-parameter: a caller
 can then name that value and reason about it linearly, which the solver
 manages where it fails on the product written out again.
 */
module RealArith {

  /** `a*b` as a fresh value, positive for positive factors. */
  lemma ProductPositive(a: real, b: real) returns (p: real)
    requires 0.0 < a && 0.0 < b
    ensures p == a * b && 0.0 < p
  {
    p := a * b;
  }

  /** `x*x` as a fresh value, with its sign facts. */
  lemma Square(x: real) returns (q: real)
    ensures q == x * x
    ensures 0.0 <= q
    ensures q == 0.0 <==> x == 0.0
  {
    q := x * x;
    if x > 0.0 {
      var p := ProductPositive(x, x);
      assert q == p;
    } else if x < 0.0 {
      var p := ProductPositive(-x, -x);
      assert (-x) * (-x) == x * x;
      assert q == p;
    }
  }

  /** A sum of three squares is non-negative, and zero exactly when all three terms are. */
  lemma SumOfSquares(a: real, b: real, c: real) returns (S: real)
    ensures S == a * a + b * b + c * c
    ensures 0.0 <= S
    ensures S == 0.0 <==> a == 0.0 && b == 0.0 && c == 0.0
  {
    var qa := Square(a);
    var qb := Square(b);
    var qc := Square(c);
    S := qa + qb + qc;
  }

  /** For a non-negative root `s` of `S`: `s` is zero exactly when `S` is. */
  lemma RootZero(s: real, S: real)
    requires 0.0 <= s && s * s == S
    ensures s == 0.0 <==> S == 0.0
  {
    var q := Square(s);
    assert q == S;
  }

  /** A non-negative root of a sum of three squares is zero exactly when all three terms are. */
  lemma RootOfSumOfSquares(s: real, a: real, b: real, c: real)
    requires 0.0 <= s && s * s == a * a + b * b + c * c
    ensures s == 0.0 <==> a == 0.0 && b == 0.0 && c == 0.0
  {
    var S := SumOfSquares(a, b, c);
    RootZero(s, S);
  }
}

=== FILE: bodies.dfy ===
/**
 The bodies of the simulated system (the star is a body like the planets)
 and the three-component vectors their state is made of.
 */
module Bodies {

  /** A vector of three real components: a position, a velocity or an acceleration. */
  datatype Vec3 = Vec3(x: real, y: real, z: real)

  const Zero: Vec3 := Vec3(0.0, 0.0, 0.0)

  function Add(u: Vec3, w: Vec3): Vec3 {
    Vec3(u.x + w.x, u.y + w.y, u.z + w.z)
  }

  function Neg(u: Vec3): Vec3 {
    Vec3(-u.x, -u.y, -u.z)
  }

  function Scale(k: real, u: Vec3): Vec3 {
    Vec3(k * u.x, k * u.y, k * u.z)
  }

  /** Squared Euclidean length. */
  function Norm2(u: Vec3): real {
    u.x * u.x + u.y * u.y + u.z * u.z
  }

  /**
   One body: its name, position (x, y, z), velocity (vx, vy, vz), mass, and
   the value `r` the body carries alongside (the initialisation stores the
   body's radius there); the force law never reads `r`.
   */
  datatype Planet = Planet(
    name: string,
    x: real, y: real, z: real,
    vx: real, vy: real, vz: real,
    mass: real,
    r: real)

  function Position(p: Planet): Vec3 {
    Vec3(p.x, p.y, p.z)
  }

  function Velocity(p: Planet): Vec3 {
    Vec3(p.vx, p.vy, p.vz)
  }

  /** The body with its kinematic state replaced and everything else kept. */
  function WithState(p: Planet, pos: Vec3, vel: Vec3): (q: Planet)
    ensures Position(q) == pos && Velocity(q) == vel
    ensures q.name == p.name && q.mass == p.mass && q.r == p.r
  {
    p.(x := pos.x, y := pos.y, z := pos.z, vx := vel.x, vy := vel.y, vz := vel.z)
  }

  /** Names, masses and carried `r` values agree entry by entry. */
  predicate SameBodies(ps: seq<Planet>, qs: seq<Planet>) {
    && |ps| == |qs|
    && forall i :: 0 <= i < |ps| ==>
         qs[i].name == ps[i].name && qs[i].mass == ps[i].mass && qs[i].r == ps[i].r
  }
}

=== FILE: gravity.dfy ===
/**
 Net gravitational acceleration on one body: the sum, over every list entry
 whose NAME differs from the body's, of G*mass*delta/R^3, where delta is the
 separation vector and R its length.

 The square root is a parameter `sqrt`; `IsSqrt` says what a square root
 must satisfy. The separation length R is `sqrt` of the squared distance,
 and every entry that is counted must have R != 0 (the sum divides by R^3).
 */
module Gravity {
  import opened Bodies
  import opened RealArith

  /** The gravitational constant used throughout, 6.67e-11 N m^2 / kg^2. */
  const G: real := 0.0000000000667

  /** `sqrt` returns the non-negative square root of every non-negative real. */
  ghost predicate IsSqrt(sqrt: real -> real) {
    forall x: real :: 0.0 <= x ==> 0.0 <= sqrt(x) && sqrt(x) * sqrt(x) == x
  }

  /** The vector from `main` to `p`. */
  function Delta(main: Planet, p: Planet): Vec3 {
    Vec3(p.x - main.x, p.y - main.y, p.z - main.z)
  }

  function SquaredDistance(main: Planet, p: Planet): real {
    Norm2(Delta(main, p))
  }

  /** R: the distance between `main` and `p`. */
  function Separation(sqrt: real -> real, main: Planet, p: Planet): real {
    sqrt(SquaredDistance(main, p))
  }

  /** Every entry that is not named like `main` is at a non-zero distance R from it. */
  predicate Separated(sqrt: real -> real, main: Planet, list: seq<Planet>) {
    forall j :: 0 <= j < |list| && list[j].name != main.name ==>
      Separation(sqrt, main, list[j]) != 0.0
  }

  /** One axis of a pull, in the order of operations of PlanetaryModels.py: G*m*delta/R^3. */
  function AxisPull(m: real, delta: real, R: real): real
    requires R != 0.0
  {
    G * m * delta / (R * R * R)
  }

  /** The acceleration of `main` due to `p` alone. */
  function Pull(sqrt: real -> real, main: Planet, p: Planet): Vec3
    requires Separation(sqrt, main, p) != 0.0
  {
    var R := Separation(sqrt, main, p);
    var d := Delta(main, p);
    Vec3(AxisPull(p.mass, d.x, R), AxisPull(p.mass, d.y, R), AxisPull(p.mass, d.z, R))
  }

  /** The pull is the displacement towards `p`, scaled by G*m/R^3. */
  lemma PullIsScaledDelta(sqrt: real -> real, main: Planet, p: Planet)
    requires Separation(sqrt, main, p) != 0.0
    ensures Pull(sqrt, main, p)
         == Scale(G * p.mass / (Separation(sqrt, main, p) * Separation(sqrt, main, p) * Separation(sqrt, main, p)),
                  Delta(main, p))
  {
  }

  /**
   The acceleration of `main` accumulated over `list` front to back; entries
   named like `main` (itself among them) contribute nothing.
   */
  function Acceleration(sqrt: real -> real, main: Planet, list: seq<Planet>): (a: Vec3)
    requires Separated(sqrt, main, list)
    ensures (forall j :: 0 <= j < |list| ==> list[j].name == main.name) ==> a == Zero
    decreases |list|
  {
    if |list| == 0 then Zero
    else
      var acc := Acceleration(sqrt, main, list[..|list| - 1]);
      var p := list[|list| - 1];
      if p.name != main.name then Add(acc, Pull(sqrt, main, p)) else acc
  }

  /** The entries that the sum counts for `main`. */
  function Others(main: Planet, list: seq<Planet>): (os: seq<Planet>)
    ensures forall k :: 0 <= k < |os| ==> os[k].name != main.name
    ensures forall p :: p in list && p.name != main.name ==> p in os
    ensures forall p :: p in os ==> p in list
    // each differently named entry is counted as often as it occurs, and no other entry is
    ensures forall p :: multiset(os)[p] == if p.name != main.name then multiset(list)[p] else 0
  {
    if |list| == 0 then []
    else
      assert list == [list[0]] + list[1..];
      if list[0].name != main.name then [list[0]] + Others(main, list[1..])
      else Others(main, list[1..])
  }

  /** Reference sum: the pulls of the given entries, added back to front. */
  function SumOfPulls(sqrt: real -> real, main: Planet, os: seq<Planet>): Vec3
    requires forall k :: 0 <= k < |os| ==> Separation(sqrt, main, os[k]) != 0.0
  {
    if |os| == 0 then Zero
    else Add(Pull(sqrt, main, os[0]), SumOfPulls(sqrt, main, os[1..]))
  }

  // ---------------------------------------------------------------------
  // Properties of the sum
  // ---------------------------------------------------------------------

  lemma SeparatedParts(sqrt: real -> real, main: Planet, a: seq<Planet>, b: seq<Planet>)
    ensures Separated(sqrt, main, a + b) <==> Separated(sqrt, main, a) && Separated(sqrt, main, b)
  {
    if Separated(sqrt, main, a) && Separated(sqrt, main, b) {
      forall j | 0 <= j < |a + b| && (a + b)[j].name != main.name
        ensures Separation(sqrt, main, (a + b)[j]) != 0.0
      {
        if j >= |a| {
          assert (a + b)[j] == b[j - |a|];
        }
      }
    }
    if Separated(sqrt, main, a + b) {
      forall j | 0 <= j < |a| && a[j].name != main.name
        ensures Separation(sqrt, main, a[j]) != 0.0
      {
        assert (a + b)[j] == a[j];
      }
      forall j | 0 <= j < |b| && b[j].name != main.name
        ensures Separation(sqrt, main, b[j]) != 0.0
      {
        assert (a + b)[|a| + j] == b[j];
      }
    }
  }

  /** The sum over a concatenation is the componentwise sum of the sums over the parts. */
  lemma {:induction false} AccelerationConcat(sqrt: real -> real, main: Planet, a: seq<Planet>, b: seq<Planet>)
    requires Separated(sqrt, main, a + b)
    ensures Separated(sqrt, main, a) && Separated(sqrt, main, b)
    ensures Acceleration(sqrt, main, a + b)
         == Add(Acceleration(sqrt, main, a), Acceleration(sqrt, main, b))
  {
    SeparatedParts(sqrt, main, a, b);
    if |b| == 0 {
      assert a + b == a;
    } else {
      var b' := b[..|b| - 1];
      assert (a + b)[..|a + b| - 1] == a + b';
      assert (a + b)[|a + b| - 1] == b[|b| - 1];
      SeparatedParts(sqrt, main, a, b');
      AccelerationConcat(sqrt, main, a, b');
    }
  }

  /** An extra entry named like `main`, anywhere in the list, changes nothing. */
  lemma AccelerationIgnoresSameName(sqrt: real -> real, main: Planet, a: seq<Planet>, q: Planet, b: seq<Planet>)
    requires q.name == main.name
    requires Separated(sqrt, main, a + b)
    ensures Separated(sqrt, main, a + [q] + b)
    ensures Acceleration(sqrt, main, a + [q] + b) == Acceleration(sqrt, main, a + b)
  {
    SeparatedParts(sqrt, main, a, b);
    SeparatedParts(sqrt, main, a, [q]);
    SeparatedParts(sqrt, main, a + [q], b);
    AccelerationConcat(sqrt, main, a + [q], b);
    AccelerationConcat(sqrt, main, a, [q]);
    AccelerationConcat(sqrt, main, a, b);
    assert [q][..0] == [];
  }

  lemma SeparatedByMultiset(sqrt: real -> real, main: Planet, a: seq<Planet>, b: seq<Planet>)
    requires multiset(a) == multiset(b)
    requires Separated(sqrt, main, a)
    ensures Separated(sqrt, main, b)
  {
    forall j | 0 <= j < |b| && b[j].name != main.name
      ensures Separation(sqrt, main, b[j]) != 0.0
    {
      assert b[j] in multiset(a);
      var k :| 0 <= k < |a| && a[k] == b[j];
    }
  }

  /** Taking entry `k` out of a list and adding its term separately gives the same sum. */
  lemma AccelerationSplitAt(sqrt: real -> real, main: Planet, b: seq<Planet>, k: nat)
    requires k < |b|
    requires Separated(sqrt, main, b)
    ensures Separated(sqrt, main, b[..k] + b[k + 1..]) && Separated(sqrt, main, [b[k]])
    ensures Acceleration(sqrt, main, b)
         == Add(Acceleration(sqrt, main, b[..k] + b[k + 1..]), Acceleration(sqrt, main, [b[k]]))
  {
    var x, y, z := b[..k], [b[k]], b[k + 1..];
    assert b == x + y + z;
    SeparatedParts(sqrt, main, x + y, z);
    SeparatedParts(sqrt, main, x, y);
    SeparatedParts(sqrt, main, x, z);
    AccelerationConcat(sqrt, main, x + y, z);
    AccelerationConcat(sqrt, main, x, y);
    AccelerationConcat(sqrt, main, x, z);
  }

  lemma MultisetRemove(a: seq<Planet>, b: seq<Planet>, k: nat)
    requires |a| > 0 && k < |b|
    requires multiset(a) == multiset(b) && b[k] == a[|a| - 1]
    ensures multiset(a[..|a| - 1]) == multiset(b[..k] + b[k + 1..])
  {
    var p := b[k];
    assert a == a[..|a| - 1] + [p];
    assert b == b[..k] + [p] + b[k + 1..];
    assert multiset(a[..|a| - 1]) == multiset(a) - multiset{p};
    assert multiset(b[..k] + b[k + 1..]) == multiset(b) - multiset{p};
  }

  /** The sum does not depend on the order of the list. */
  lemma {:induction false} AccelerationPermutation(sqrt: real -> real, main: Planet, a: seq<Planet>, b: seq<Planet>)
    requires multiset(a) == multiset(b)
    requires Separated(sqrt, main, a)
    ensures Separated(sqrt, main, b)
    ensures Acceleration(sqrt, main, a) == Acceleration(sqrt, main, b)
    decreases |a|
  {
    SeparatedByMultiset(sqrt, main, a, b);
    if |a| > 0 {
      var n := |a| - 1;
      var p := a[n];
      assert p in multiset(b);
      var k :| 0 <= k < |b| && b[k] == p;
      MultisetRemove(a, b, k);
      AccelerationSplitAt(sqrt, main, a, n);
      assert a[..n] + a[n + 1..] == a[..n];
      AccelerationSplitAt(sqrt, main, b, k);
      AccelerationPermutation(sqrt, main, a[..n], b[..k] + b[k + 1..]);
    }
  }

  /** The accumulated sum equals the reference sum over the entries named unlike `main`. */
  lemma {:induction false} AccelerationIsSumOfOthers(sqrt: real -> real, main: Planet, list: seq<Planet>)
    requires Separated(sqrt, main, list)
    ensures forall k :: 0 <= k < |Others(main, list)| ==>
      Separation(sqrt, main, Others(main, list)[k]) != 0.0
    ensures Acceleration(sqrt, main, list) == SumOfPulls(sqrt, main, Others(main, list))
    decreases |list|
  {
    if |list| > 0 {
      var p := list[0];
      var tail := list[1..];
      assert list == [p] + tail;
      SeparatedParts(sqrt, main, [p], tail);
      AccelerationIsSumOfOthers(sqrt, main, tail);
      AccelerationConcat(sqrt, main, [p], tail);
      assert [p][..0] == [];
      if p.name != main.name {
        assert Others(main, list)[1..] == Others(main, tail);
      }
    }
  }

  /** Newton's third law: mass_A * pull on A from B == -(mass_B * pull on B from A). */
  lemma ThirdLaw(sqrt: real -> real, a: Planet, b: Planet)
    requires Separation(sqrt, a, b) != 0.0
    ensures Separation(sqrt, b, a) == Separation(sqrt, a, b)
    ensures Scale(a.mass, Pull(sqrt, a, b)) == Neg(Scale(b.mass, Pull(sqrt, b, a)))
  {
    var d := Delta(a, b);
    assert Delta(b, a) == Neg(d);
    SquaredNormOfNeg(d);
    var R := Separation(sqrt, a, b);
    AxisPullAntisymmetric(a.mass, b.mass, d.x, R);
    AxisPullAntisymmetric(a.mass, b.mass, d.y, R);
    AxisPullAntisymmetric(a.mass, b.mass, d.z, R);
  }

  lemma SquaredNormOfNeg(d: Vec3)
    ensures Norm2(Neg(d)) == Norm2(d)
  {
  }

  /** One axis of the third law, with the separation reversed on the other side. */
  lemma AxisPullAntisymmetric(ma: real, mb: real, delta: real, R: real)
    requires R != 0.0
    ensures ma * AxisPull(mb, delta, R) == -(mb * AxisPull(ma, -delta, R))
  {
  }

  lemma SeparatedPrefix(sqrt: real -> real, main: Planet, list: seq<Planet>, i: nat)
    requires i <= |list|
    requires Separated(sqrt, main, list)
    ensures Separated(sqrt, main, list[..i])
  {
  }

  /** One more entry of the list adds its pull when it is named unlike `main`. */
  lemma AccelerationStep(sqrt: real -> real, main: Planet, list: seq<Planet>, i: nat)
    requires i < |list|
    requires Separated(sqrt, main, list)
    ensures Separated(sqrt, main, list[..i]) && Separated(sqrt, main, list[..i + 1])
    ensures list[i].name != main.name ==> Separation(sqrt, main, list[i]) != 0.0
    ensures Acceleration(sqrt, main, list[..i + 1])
         == if list[i].name != main.name
            then Add(Acceleration(sqrt, main, list[..i]), Pull(sqrt, main, list[i]))
            else Acceleration(sqrt, main, list[..i])
  {
    SeparatedPrefix(sqrt, main, list, i);
    SeparatedPrefix(sqrt, main, list, i + 1);
    assert list[..i + 1][..i] == list[..i];
  }

  /** With a true square root, distinct positions are exactly a non-zero separation. */
  lemma SeparationPositive(sqrt: real -> real, main: Planet, p: Planet)
    requires IsSqrt(sqrt)
    ensures Separation(sqrt, main, p) != 0.0 <==> Position(main) != Position(p)
    ensures 0.0 <= Separation(sqrt, main, p)
  {
    var d := Delta(main, p);
    SquaredDistanceNonNegative(main, p);
    var R := Separation(sqrt, main, p);
    assert 0.0 <= R && R * R == d.x * d.x + d.y * d.y + d.z * d.z;
    RootOfSumOfSquares(R, d.x, d.y, d.z);
    assert Position(main) == Position(p) <==> d.x == 0.0 && d.y == 0.0 && d.z == 0.0;
  }

  lemma SquaredDistanceNonNegative(main: Planet, p: Planet)
    ensures 0.0 <= SquaredDistance(main, p)
  {
  }

  /**
   The loop of `planetAcceleration` in PlanetaryModels.py: three accumulators start at zero and each entry
   named unlike `main` adds its pull.
   */
  method PlanetAcceleration(sqrt: real -> real, main: Planet, list: seq<Planet>)
      returns (ax: real, ay: real, az: real)
    requires Separated(sqrt, main, list)
    ensures Vec3(ax, ay, az) == Acceleration(sqrt, main, list)
  {
    ax, ay, az := 0.0, 0.0, 0.0;
    var i := 0;
    while i < |list|
      invariant 0 <= i <= |list|
      invariant Separated(sqrt, main, list[..i])
      invariant Vec3(ax, ay, az) == Acceleration(sqrt, main, list[..i])
    {
      var p := list[i];
      AccelerationStep(sqrt, main, list, i);
      if p.name != main.name {
        var a := Pull(sqrt, main, p);
        ax := ax + a.x;
        ay := ay + a.y;
        az := az + a.z;
      }
      i := i + 1;
    }
    assert list[..i] == list;
  }
}

=== FILE: kinematics.dfy ===
/**
 The constant-acceleration update of one axis over a time `t`: the velocity
 grows by `a*t` and the position by `v*t + (a/2)*t^2`.
 */
module Kinematics {

  /** Velocity after time `t` from velocity `v` under constant acceleration `a`. */
  function NewVelocity(t: real, v: real, a: real): (v': real)
    ensures a == 0.0 || t == 0.0 ==> v' == v
    ensures t != 0.0 ==> (v' - v) / t == a
  {
    v + a * t
  }

  /** Position after time `t` from position `r` and velocity `v` under constant acceleration `a`. */
  function NewPosition(t: real, r: real, v: real, a: real): (r': real)
    ensures t == 0.0 ==> r' == r
    // the distance covered is the time times the mean of the start and end velocities
    ensures r' == r + t * (v + NewVelocity(t, v, a)) / 2.0
  {
    r + v * t + (a / 2.0) * t * t
  }

  /** Two consecutive updates under the same acceleration are one update over the summed time. */
  lemma VelocityComposes(t1: real, t2: real, v: real, a: real)
    ensures NewVelocity(t2, NewVelocity(t1, v, a), a) == NewVelocity(t1 + t2, v, a)
  {
  }

  lemma PositionComposes(t1: real, t2: real, r: real, v: real, a: real)
    ensures NewPosition(t2, NewPosition(t1, r, v, a), NewVelocity(t1, v, a), a)
         == NewPosition(t1 + t2, r, v, a)
  {
  }

  /** Running the update backwards over the same time restores the start state. */
  lemma StepReversible(t: real, r: real, v: real, a: real)
    ensures NewVelocity(-t, NewVelocity(t, v, a), a) == v
    ensures NewPosition(-t, NewPosition(t, r, v, a), NewVelocity(t, v, a), a) == r
  {
  }
}

=== FILE: orbit.dfy ===
/**
 The speed that puts a body on a circular orbit of radius |r| around a
 central mass `m`, used for the initial velocities. A negative `r` gives the
 negated speed, so the body circles the same way as its mirror image.
 */
module Orbit {
  import opened Gravity

  function Abs(x: real): real {
    if x < 0.0 then -x else x
  }

  /** The circular-orbit speed sqrt(G*m/r), negated for negative `r`; `r == 0` is outside its domain. */
  function OrbitalSpeed(sqrt: real -> real, r: real, m: real): (s: real)
    requires IsSqrt(sqrt)
    requires r != 0.0
    ensures 0.0 < m && r < 0.0 ==> s < 0.0
    ensures 0.0 < m && 0.0 < r ==> 0.0 < s
  {
    CircularRadicand(r, m);
    SqrtPositive(sqrt, -G * m / r);
    SqrtPositive(sqrt, G * m / r);
    if r < 0.0 then -sqrt(-G * m / r) else sqrt(G * m / r)
  }

  /** The root of a positive number is positive. */
  lemma SqrtPositive(sqrt: real -> real, x: real)
    requires IsSqrt(sqrt)
    ensures 0.0 < x ==> 0.0 < sqrt(x)
  {
  }

  /** The two radicands are the same number G*m/|r|, non-negative for a non-negative mass. */
  lemma CircularRadicand(r: real, m: real)
    requires r != 0.0
    ensures r < 0.0 ==> -G * m / r == G * m / Abs(r)
    ensures 0.0 < r ==> G * m / r == G * m / Abs(r)
    ensures 0.0 <= m ==> 0.0 <= G * m / Abs(r)
    ensures 0.0 < m ==> 0.0 < G * m / Abs(r)
    ensures (G * m / Abs(r)) * Abs(r) == G * m
  {
  }

  /** Mirroring the radius mirrors the speed. */
  lemma OrbitalSpeedOdd(sqrt: real -> real, r: real, m: real)
    requires IsSqrt(sqrt)
    requires r != 0.0
    ensures OrbitalSpeed(sqrt, -r, m) == -OrbitalSpeed(sqrt, r, m)
  {
    CircularRadicand(r, m);
    CircularRadicand(-r, m);
  }

  /**
   The speed is that of a circular orbit: the centripetal acceleration
   s^2/|r| equals the gravitational one G*m/r^2, i.e. s^2 * |r| == G*m.
   */
  lemma OrbitalSpeedCircular(sqrt: real -> real, r: real, m: real)
    requires IsSqrt(sqrt)
    requires r != 0.0 && 0.0 <= m
    ensures OrbitalSpeed(sqrt, r, m) * OrbitalSpeed(sqrt, r, m) * Abs(r) == G * m
  {
  }
}

=== FILE: runner.dfy ===
/**
 The run: the list of sample times `range(0, simulationTime, timestep)`, and
 one system step of length `timestep` per sample time, recording every body's
 position after each step in a table indexed by body, then by sample.
 */
module Runner {
  import opened Bodies
  import opened Gravity
  import opened Stepper

  /** The elements of `range(start, stop, step)`, one after another. */
  function RangeSeq(start: int, stop: int, step: int): (r: seq<int>)
    requires step != 0
    ensures forall k :: 0 <= k < |r| ==> r[k] == start + k * step
    decreases if step > 0 then stop - start else start - stop
  {
    if (step > 0 && start < stop) || (step < 0 && start > stop) then
      [start] + RangeSeq(start + step, stop, step)
    else
      []
  }

  /** `len(range(0, stop, step))` in closed form: the number of steps taken. */
  function StepCount(stop: int, step: int): (n: nat)
    requires step != 0
  {
    if step > 0 then
      (if stop <= 0 then 0 else CeilDiv(stop, step))
    else
      (if stop >= 0 then 0 else CeilDiv(-stop, -step))
  }

  /** The number of strides of length `s` that cover a distance `d`, rounded up. */
  function CeilDiv(d: int, s: int): nat
    requires 0 < d && 0 < s
  {
    (d + s - 1) / s
  }

  /** `k*s` as a fresh value, at least `s` for a positive `k`. */
  lemma {:induction false} MulAtLeast(k: int, s: int) returns (p: int)
    requires 1 <= k && 0 < s
    ensures p == k * s && s <= p
    decreases k
  {
    if k == 1 {
      p := s;
    } else {
      var p' := MulAtLeast(k - 1, s);
      p := p' + s;
    }
  }

  /** Euclidean division has one quotient for a remainder in `[0, s)`. */
  lemma DivUnique(x: int, s: int, q: int, r: int)
    requires 0 < s && x == q * s + r && 0 <= r < s
    ensures x / s == q
  {
    var q', r' := x / s, x % s;
    assert x == q' * s + r';
    if q > q' {
      var p := MulAtLeast(q - q', s);
      assert false;
    } else if q < q' {
      var p := MulAtLeast(q' - q, s);
      assert false;
    }
  }

  /** Covering `d` takes one stride if `d <= s`, else one more than covering `d - s`. */
  lemma CeilDivStride(d: int, s: int)
    requires 0 < d && 0 < s
    ensures d <= s ==> CeilDiv(d, s) == 1
    ensures s < d ==> CeilDiv(d, s) == CeilDiv(d - s, s) + 1
  {
    if d <= s {
      DivUnique(d + s - 1, s, 1, d - 1);
    } else {
      var q := CeilDiv(d - s, s);
      var r := (d - 1) % s;
      assert d - 1 == q * s + r;
      DivUnique(d + s - 1, s, q + 1, r);
    }
  }

  /** The range from `start` has one element more than the range from `start + step`. */
  lemma {:induction false} RangeLength(start: int, stop: int, step: int)
    requires step != 0
    ensures |RangeSeq(start, stop, step)| == StepCount(stop - start, step)
    decreases if step > 0 then stop - start else start - stop
  {
    if step > 0 && start < stop {
      RangeLength(start + step, stop, step);
      CeilDivStride(stop - start, step);
    } else if step < 0 && start > stop {
      RangeLength(start + step, stop, step);
      CeilDivStride(start - stop, -step);
    }
  }

  /** The step count is the length of the list of sample times. */
  lemma StepCountIsLength(stop: int, step: int)
    requires step != 0
    ensures StepCount(stop, step) == |RangeSeq(0, stop, step)|
  {
    RangeLength(0, stop, step);
  }

  /** Each of the first `n` steps starts from a system without coincident bodies. */
  predicate SeparatedFor(sqrt: real -> real, t: real, ps: seq<Planet>, n: nat)
    decreases n, 0
  {
    n == 0 || (SeparatedFor(sqrt, t, ps, n - 1) && SystemSeparated(sqrt, Iterate(sqrt, t, ps, n - 1)))
  }

  /** The system after `n` steps of length `t`: one more step after `n - 1` steps. */
  function Iterate(sqrt: real -> real, t: real, ps: seq<Planet>, n: nat): (qs: seq<Planet>)
    requires SeparatedFor(sqrt, t, ps, n)
    ensures SameBodies(ps, qs)
    decreases n, 1
  {
    if n == 0 then ps else UpdateSystem(sqrt, t, Iterate(sqrt, t, ps, n - 1)).planets
  }

  /** Separation for `n` steps gives separation for any fewer. */
  lemma {:induction false} SeparatedForPrefix(sqrt: real -> real, t: real, ps: seq<Planet>, n: nat, k: nat)
    requires SeparatedFor(sqrt, t, ps, n) && k <= n
    ensures SeparatedFor(sqrt, t, ps, k)
    decreases n - k
  {
    if k < n {
      SeparatedForPrefix(sqrt, t, ps, n - 1, k);
    }
  }

  /** Steps compose: `a + b` steps are `b` steps after the first `a`. */
  lemma {:induction false} IterateSplit(sqrt: real -> real, t: real, ps: seq<Planet>, a: nat, b: nat)
    requires SeparatedFor(sqrt, t, ps, a + b)
    ensures SeparatedFor(sqrt, t, ps, a)
    ensures SeparatedFor(sqrt, t, Iterate(sqrt, t, ps, a), b)
    ensures Iterate(sqrt, t, ps, a + b) == Iterate(sqrt, t, Iterate(sqrt, t, ps, a), b)
    decreases b
  {
    if b > 0 {
      IterateSplit(sqrt, t, ps, a, b - 1);
    }
  }

  /** Writes `column[i]` into column `j` of row `i` of the table, for every row. */
  method RecordColumn(table: seq<seq<Vec3>>, j: nat, column: seq<Vec3>) returns (table': seq<seq<Vec3>>)
    requires |column| == |table|
    requires forall i :: 0 <= i < |table| ==> j < |table[i]|
    ensures |table'| == |table|
    ensures forall i :: 0 <= i < |table| ==> |table'[i]| == |table[i]|
    ensures forall i, k :: 0 <= i < |table| && 0 <= k < |table[i]| ==>
      table'[i][k] == if k == j then column[i] else table[i][k]
  {
    table' := table;
    for i := 0 to |table|
      invariant |table'| == |table|
      invariant forall i' :: 0 <= i' < |table| ==> |table'[i']| == |table[i']|
      invariant forall i', k :: 0 <= i' < |table| && 0 <= k < |table[i']| ==>
        table'[i'][k] == if k == j && i' < i then column[i'] else table[i'][k]
    {
      table' := table'[i := table'[i][j := column[i]]];
    }
  }

  /** The system after `k` of the `n` separated steps. */
  function StateAfter(sqrt: real -> real, t: real, ps: seq<Planet>, n: nat, k: nat): seq<Planet>
    requires SeparatedFor(sqrt, t, ps, n) && k <= n
  {
    SeparatedForPrefix(sqrt, t, ps, n, k);
    Iterate(sqrt, t, ps, k)
  }

  /** Step `j + 1` of a run of `n` steps: the system step applied to the list after `j` steps. */
  method Advance(sqrt: real -> real, t: real, planetList: seq<Planet>, n: nat, j: nat, planets: seq<Planet>)
      returns (stepped: seq<Planet>, column: seq<Vec3>)
    requires SeparatedFor(sqrt, t, planetList, n) && j < n
    requires SeparatedFor(sqrt, t, planetList, j) && planets == Iterate(sqrt, t, planetList, j)
    ensures SeparatedFor(sqrt, t, planetList, j + 1)
    ensures stepped == Iterate(sqrt, t, planetList, j + 1)
    ensures |column| == |planetList|
    ensures forall i :: 0 <= i < |column| ==> column[i] == Position(stepped[i])
  {
    SeparatedForPrefix(sqrt, t, planetList, n, j + 1);
    stepped, column := StepOnce(sqrt, t, planetList, j, planets);
  }

  /** The call of `updateSystem` in the run loop of PlanetaryModels.py on the list after `j` steps, and the positions it returns. */
  method StepOnce(sqrt: real -> real, t: real, planetList: seq<Planet>, j: nat, planets: seq<Planet>)
      returns (stepped: seq<Planet>, column: seq<Vec3>)
    requires SeparatedFor(sqrt, t, planetList, j + 1)
    requires planets == Iterate(sqrt, t, planetList, j)
    ensures stepped == Iterate(sqrt, t, planetList, j + 1)
    ensures |column| == |planetList|
    ensures forall i :: 0 <= i < |column| ==> column[i] == Position(stepped[i])
  {
    var planetVelocities;
    stepped, column, planetVelocities := UpdateSystemLoops(sqrt, t, planets);
  }

  /**
   The run: `StepCount(simulationTime, timestep)` steps of length `timestep`,
   starting from `planetList`; column `j` of row `i` of the table is the
   position of body `i` after step `j + 1`.
   */
  method Run(sqrt: real -> real, timestep: int, simulationTime: int, planetList: seq<Planet>)
      returns (positions: seq<seq<Vec3>>, planets: seq<Planet>)
    requires timestep != 0
    requires SeparatedFor(sqrt, timestep as real, planetList, StepCount(simulationTime, timestep))
    ensures |positions| == |planetList|
    ensures forall i :: 0 <= i < |positions| ==> |positions[i]| == StepCount(simulationTime, timestep)
    ensures forall i, j :: 0 <= i < |positions| && 0 <= j < |positions[i]| ==>
      j < StepCount(simulationTime, timestep) &&
      positions[i][j] ==
        Position(StateAfter(sqrt, timestep as real, planetList, StepCount(simulationTime, timestep), j + 1)[i])
    ensures planets == Iterate(sqrt, timestep as real, planetList, StepCount(simulationTime, timestep))
  {
    var t := timestep as real;
    var n := StepCount(simulationTime, timestep);
    positions := seq(|planetList|, _ => seq(n, _ => Zero));
    planets := planetList;
    for j := 0 to n
      invariant SeparatedFor(sqrt, t, planetList, j)
      invariant planets == Iterate(sqrt, t, planetList, j)
      invariant |positions| == |planetList|
      invariant forall i :: 0 <= i < |positions| ==> |positions[i]| == n
      invariant forall i, k :: 0 <= i < |positions| && 0 <= k < j ==>
        positions[i][k] == Position(StateAfter(sqrt, t, planetList, n, k + 1)[i])
    {
      var stepped, planetPositions := Advance(sqrt, t, planetList, n, j, planets);
      planets := stepped;
      positions := RecordColumn(positions, j, planetPositions);
    }
  }
}

=== FILE: stepper.dfy ===
/**
 One step of the whole system over a time `t`: first every body's new
 position and velocity is computed from the unmodified list (the snapshot),
 and only then are all of them written back.
 */
module Stepper {
  import opened Bodies
  import opened Kinematics
  import opened Gravity

  /** Every pair of differently named bodies is at a non-zero distance R. */
  predicate SystemSeparated(sqrt: real -> real, ps: seq<Planet>) {
    forall i, j :: 0 <= i < |ps| && 0 <= j < |ps| && ps[i].name != ps[j].name ==>
      Separation(sqrt, ps[i], ps[j]) != 0.0
  }

  /** A staged update: the new position and velocity of one body. */
  datatype Staged = Staged(position: Vec3, velocity: Vec3)

  /**
   The update of one body `p` against the list `snapshot`: its acceleration
   over the snapshot, then the constant-acceleration formulas per axis.
   */
  function StagePlanet(sqrt: real -> real, t: real, p: Planet, snapshot: seq<Planet>): Staged
    requires Separated(sqrt, p, snapshot)
  {
    var a := Acceleration(sqrt, p, snapshot);
    Staged(
      Vec3(NewPosition(t, p.x, p.vx, a.x), NewPosition(t, p.y, p.vy, a.y), NewPosition(t, p.z, p.vz, a.z)),
      Vec3(NewVelocity(t, p.vx, a.x), NewVelocity(t, p.vy, a.y), NewVelocity(t, p.vz, a.z)))
  }

  /**
   The staged update is the vector form of the per-axis formulas:
   v + a*t and r + v*t + (t*t/2)*a, with `a` the acceleration over the snapshot.
   */
  lemma StagePlanetIsVectorUpdate(sqrt: real -> real, t: real, p: Planet, snapshot: seq<Planet>)
    requires Separated(sqrt, p, snapshot)
    ensures StagePlanet(sqrt, t, p, snapshot).velocity
         == Add(Velocity(p), Scale(t, Acceleration(sqrt, p, snapshot)))
    ensures StagePlanet(sqrt, t, p, snapshot).position
         == Add(Add(Position(p), Scale(t, Velocity(p))), Scale(t * t / 2.0, Acceleration(sqrt, p, snapshot)))
  {
    var a := Acceleration(sqrt, p, snapshot);
    VelocityVectorUpdate(t, Velocity(p), a);
    PositionVectorUpdate(t, Position(p), Velocity(p), a);
  }

  /** The per-axis velocity update of a vector `v` under acceleration `a` is `v + t*a`. */
  lemma VelocityVectorUpdate(t: real, v: Vec3, a: Vec3)
    ensures Vec3(NewVelocity(t, v.x, a.x), NewVelocity(t, v.y, a.y), NewVelocity(t, v.z, a.z))
         == Add(v, Scale(t, a))
  {
  }

  /** The per-axis position update of a vector `r` is `r + t*v + (t*t/2)*a`. */
  lemma PositionVectorUpdate(t: real, r: Vec3, v: Vec3, a: Vec3)
    ensures Vec3(NewPosition(t, r.x, v.x, a.x), NewPosition(t, r.y, v.y, a.y), NewPosition(t, r.z, v.z, a.z))
         == Add(Add(r, Scale(t, v)), Scale(t * t / 2.0, a))
  {
  }

  /** What one step returns: the updated list and the two lists of staged vectors. */
  datatype StepResult = StepResult(planets: seq<Planet>, newPositions: seq<Vec3>, newVelocities: seq<Vec3>)

  /** The step: stage every body against the unmodified `ps`, then commit all of them. */
  function UpdateSystem(sqrt: real -> real, t: real, ps: seq<Planet>): (res: StepResult)
    requires SystemSeparated(sqrt, ps)
    ensures |res.planets| == |res.newPositions| == |res.newVelocities| == |ps|
    ensures SameBodies(ps, res.planets)
    ensures forall i :: 0 <= i < |ps| ==>
      Position(res.planets[i]) == res.newPositions[i] && Velocity(res.planets[i]) == res.newVelocities[i]
    // snapshot semantics: entry i is body i updated against the pre-step list
    ensures forall i :: 0 <= i < |ps| ==>
      Staged(res.newPositions[i], res.newVelocities[i]) == StagePlanet(sqrt, t, ps[i], ps)
  {
    var staged := seq(|ps|, i requires 0 <= i < |ps| => StagePlanet(sqrt, t, ps[i], ps));
    var positions := seq(|ps|, i requires 0 <= i < |ps| => staged[i].position);
    var velocities := seq(|ps|, i requires 0 <= i < |ps| => staged[i].velocity);
    StepResult(Commit(ps, positions, velocities), positions, velocities)
  }

  /** Writes staged position `i` and velocity `i` into body `i`. */
  function Commit(ps: seq<Planet>, positions: seq<Vec3>, velocities: seq<Vec3>): (qs: seq<Planet>)
    requires |positions| == |ps| && |velocities| == |ps|
    ensures SameBodies(ps, qs)
    ensures forall i :: 0 <= i < |ps| ==> Position(qs[i]) == positions[i] && Velocity(qs[i]) == velocities[i]
  {
    seq(|ps|, i requires 0 <= i < |ps| => WithState(ps[i], positions[i], velocities[i]))
  }

  lemma SystemSeparatedByMultiset(sqrt: real -> real, ps: seq<Planet>, qs: seq<Planet>)
    requires multiset(ps) == multiset(qs)
    requires SystemSeparated(sqrt, ps)
    ensures SystemSeparated(sqrt, qs)
  {
    forall i, j | 0 <= i < |qs| && 0 <= j < |qs| && qs[i].name != qs[j].name
      ensures Separation(sqrt, qs[i], qs[j]) != 0.0
    {
      assert qs[i] in multiset(ps) && qs[j] in multiset(ps);
      var i' :| 0 <= i' < |ps| && ps[i'] == qs[i];
      var j' :| 0 <= j' < |ps| && ps[j'] == qs[j];
    }
  }

  /**
   The step does not depend on the order of the list: in any reordering of
   the bodies, each body ends up in the same state.
   */
  lemma UpdateSystemOrderIndependent(sqrt: real -> real, t: real, ps: seq<Planet>, qs: seq<Planet>, i: nat, j: nat)
    requires multiset(ps) == multiset(qs)
    requires SystemSeparated(sqrt, ps)
    requires i < |ps| && j < |qs| && ps[i] == qs[j]
    ensures SystemSeparated(sqrt, qs)
    ensures UpdateSystem(sqrt, t, qs).planets[j] == UpdateSystem(sqrt, t, ps).planets[i]
  {
    SystemSeparatedByMultiset(sqrt, ps, qs);
    AccelerationPermutation(sqrt, ps[i], ps, qs);
  }

  /**
   The two loops of `updateSystem` in PlanetaryModels.py, over a list that
   the second loop mutates: the
   first loop stages every body against the list while it is still
   untouched; the second writes the staged values back one body at a time.
   */
  method UpdateSystemLoops(sqrt: real -> real, t: real, planetList: seq<Planet>)
      returns (planets: seq<Planet>, newPositions: seq<Vec3>, newVelocities: seq<Vec3>)
    requires SystemSeparated(sqrt, planetList)
    ensures StepResult(planets, newPositions, newVelocities) == UpdateSystem(sqrt, t, planetList)
  {
    newPositions, newVelocities := StageAll(sqrt, t, planetList);
    planets := CommitAll(planetList, newPositions, newVelocities);
    var expected := UpdateSystem(sqrt, t, planetList);
    assert planets == expected.planets;
    assert newPositions == expected.newPositions;
    assert newVelocities == expected.newVelocities;
  }

  /** The first loop: entry `i` is body `i` updated against the untouched list. */
  method StageAll(sqrt: real -> real, t: real, planets: seq<Planet>)
      returns (newPositions: seq<Vec3>, newVelocities: seq<Vec3>)
    requires SystemSeparated(sqrt, planets)
    ensures |newPositions| == |planets| && |newVelocities| == |planets|
    ensures forall k :: 0 <= k < |planets| ==>
      Staged(newPositions[k], newVelocities[k]) == StagePlanet(sqrt, t, planets[k], planets)
  {
    newPositions, newVelocities := [], [];
    for i := 0 to |planets|
      invariant |newPositions| == i && |newVelocities| == i
      invariant forall k :: 0 <= k < i ==>
        Staged(newPositions[k], newVelocities[k]) == StagePlanet(sqrt, t, planets[k], planets)
    {
      var p := planets[i];
      var ax, ay, az := PlanetAcceleration(sqrt, p, planets);
      var newVx, newVy, newVz := NewVelocity(t, p.vx, ax), NewVelocity(t, p.vy, ay), NewVelocity(t, p.vz, az);
      var newX, newY, newZ := NewPosition(t, p.x, p.vx, ax), NewPosition(t, p.y, p.vy, ay), NewPosition(t, p.z, p.vz, az);
      newPositions := newPositions + [Vec3(newX, newY, newZ)];
      newVelocities := newVelocities + [Vec3(newVx, newVy, newVz)];
    }
  }

  /** The second loop: body `i` takes staged entry `i`, and is the only body the pass `i` changes. */
  method CommitAll(planetList: seq<Planet>, newPositions: seq<Vec3>, newVelocities: seq<Vec3>)
      returns (planets: seq<Planet>)
    requires |newPositions| == |planetList| && |newVelocities| == |planetList|
    ensures planets == Commit(planetList, newPositions, newVelocities)
  {
    planets := planetList;
    for i := 0 to |planets|
      invariant |planets| == |planetList|
      invariant forall k :: 0 <= k < i ==>
        planets[k] == WithState(planetList[k], newPositions[k], newVelocities[k])
      invariant forall k :: i <= k < |planets| ==> planets[k] == planetList[k]
    {
      planets := planets[i := planets[i].(x := newPositions[i].x, y := newPositions[i].y, z := newPositions[i].z,
                                          vx := newVelocities[i].x, vy := newVelocities[i].y, vz := newVelocities[i].z)];
    }
  }
}
